=== FILE: README.md ===
# udco2s-to-sqlite: the serial session and the sample parser

A Dafny model of the two parts of `udco2s-to-sqlite-py` that carry real logic.

**The `UdCo2S` serial session** (`src/pkg/udco2s.py`). One call of `read` goes through these steps:
1. It opens the serial port and discards its input buffer.
2. It sends `STA` and requires the reply `OK STA`.
3. It reads data lines, either once or continuously, and hands each one to the exporter.
4. Its `finally` block sends `STP`, reads the reply, closes the port, and only then checks that the reply was `OK STP`.

**The sample parser** (`src/pkg/parser.py`). It applies
`CO2=(\d+),HUM=(\d+\.\d+),TMP=(-?\d+\.\d+)` with `re.match` to a line and builds an `Udco2sData` record from the groups.

Files:
- `pystr.dfy` (module `PyStr`): Python's `str.strip()` with no argument. The session applies it to every line it reads.
- `parser.dfy` (module `Parser`): the pattern as a hand-written prefix matcher over the characters of the line.
  - Humidity and temperature are kept as exact decimals: sign, integer digits and fraction digits.
  - `int()` on the CO2 digits is modelled, including the 4300-digit limit of Python's default `sys.get_int_max_str_digits()`.
- `udco2s.dfy` (module `UdCo2S`): the session, one pure function per method of `UdCo2S`.
  - The port and the exporter are scripted. A `Device` record gives the outcome of opening the port (with the buffer reset), of the two writes and of `close()`.
  - The successive `readline()` calls consume a sequence of `ReadEvent`s: a line, a timeout, a read error or a keyboard interrupt. Once the script is exhausted, every read times out.
  - The successive `export()` calls consume a sequence of results. Once that script is exhausted, every export succeeds.
  - Each stage returns three things: the actions it performed (open, reset, write, read, export, close), what is left of the scripts, and how it exited (normally or by raising).
  - `Read` composes the stages the way the `try`/`except`/`finally` of `read` does.
- `session_properties.dfy` (module `SessionProperties`): whole-session consequences, and one concrete exchange whose exported line parses back to the sample the device sent.

Behaviour of the code that the model keeps on purpose, although a reader of the protocol might expect otherwise:
- The `finally` block has the last word. A `SerialPortCloseException` raised by the stop block replaces whatever the `try` block raised, and also replaces a success.
- A failing `STP` write, or a failing read of its reply, skips `sp.close()`. The port is still open when `read` returns, and the failure still surfaces as `SerialPortCloseException`.
- A `KeyboardInterrupt` during the reply read is not an `Exception`. It escapes the stop block without being wrapped.
- A read error during the `STA` handshake is not turned into `DeviceNotReadyException`: the transport error propagates as it is. A timeout gives the empty reply and therefore `DeviceNotReadyException("")`.
- Continuous reading swallows only what the data loop raises: the timeout, a failed read, an exporter failure and `KeyboardInterrupt`. Failures to open, of the handshake and of the stop block still propagate from `read`.
- When `reset_input_buffer()` fails after the port opened, `sp` is never bound in `read`. The `finally` block then does nothing, and the port is still open when `read` returns. Nothing in the program closes it; only pyserial's finaliser would, once the object is collected.

## Model

| member | source | states |
|---|---|---|
| PyStr.StripSpec | src/pkg/udco2s.py:76 | `strip()` yields the longest slice that neither starts nor ends with whitespace; everything around it is whitespace; the result is empty exactly when the line is all whitespace |
| PyStr.StripPadded | src/pkg/udco2s.py:119 | whitespace padding, such as a `\r\n` terminator, around text without whitespace at its ends is exactly what `strip()` removes |
| PyStr.StripIdempotent | src/pkg/udco2s.py:76 | `strip()` is idempotent: stripping the result of `strip()` again changes nothing |
| Parser.ScanUnsignedSound | src/pkg/parser.py:15 | what the scanner takes for `\d+\.\d+` is digits, a dot and digits lying at the scan position, and is not followed by a digit |
| Parser.ScanUnsignedExact | src/pkg/parser.py:15 | conversely, digits, a dot and digits not followed by a digit scan to exactly those parts |
| Parser.ScanDecimalSound | src/pkg/parser.py:15 | the optional-sign decimal scan finds a well-formed decimal at its position, negative only where a sign is allowed |
| Parser.ScanDecimalExact | src/pkg/parser.py:15 | a well-formed decimal at a position, negative only when a sign is allowed and followed by a non-digit, scans to exactly that decimal |
| Parser.MatchPrefix | src/pkg/parser.py:14-19 | a match starts with `CO2=` and its humidity is never negative |
| Parser.MatchPrefixSound | src/pkg/parser.py:14-19 | every match consists of well-formed groups lying part by part at the start of the line, and the next character is not a digit |
| Parser.MatchReadingsScans | src/pkg/parser.py:15 | a match of the readings is a humidity scan, `,TMP=`, then a temperature scan, end to end |
| Parser.MatchPrefixExact | src/pkg/parser.py:14-19 | conversely, groups lying at the start of a line and followed by a non-digit are matched, with exactly those groups |
| Parser.MatchPrefixComplete | src/pkg/parser.py:14-19 | every line made of the text of well-formed groups followed by anything but a digit matches with those groups |
| Parser.Parse | src/pkg/parser.py:18-26 | a line not starting with `CO2=` gives `ValueError`; a parsed sample always comes from a prefix match of the line, with `co2_ppm` the value of the CO2 digits, and never has negative humidity |
| Parser.ParseWellFormed | src/pkg/parser.py:14-24 | every line `CO2=<d+>,HUM=<d+>.<d+>,TMP=[-]<d+>.<d+>` with at most 4300 CO2 digits, followed by anything not starting with a digit, parses to the value of the CO2 digits and the two decimals |
| Parser.ParseTooManyDigits | src/pkg/parser.py:21 | more CO2 digits than `int()` accepts give `ValueError`, although the pattern matched |
| Parser.ParseRoundTrip | src/pkg/parser.py:15-24 | rendering a sample with non-negative humidity, well-formed decimals and a CO2 value of at most 4300 digits in the line format, and parsing it, gives the same sample back |
| Parser.ParsePrefixStable | src/pkg/parser.py:19 | appending text that does not begin with a digit to a line that parses leaves the result unchanged |
| Parser.ParseAnchored | src/pkg/parser.py:19-26 | a line with a leading space is refused |
| Parser.NegativeHumidityRejected | src/pkg/parser.py:15 | a `-` right after `HUM=` gives `ValueError` |
| Parser.HumidityFractionRequired | src/pkg/parser.py:15 | `HUM=<digits>` followed by anything but `.` or a digit gives `ValueError` |
| Parser.NegativeTemperatureAccepted | src/pkg/parser.py:15-24 | a negative temperature parses, sign included |
| Parser.TemperatureFractionRequired | src/pkg/parser.py:15 | `TMP=[-]<digits>` followed by anything but `.` or a digit gives `ValueError` |
| Parser.MatchPrefixNoHumidity | src/pkg/parser.py:15 | after `CO2=<digits>,HUM=`, text that is not a decimal is no match |
| Parser.MatchPrefixNoTemperature | src/pkg/parser.py:15 | after a valid humidity and `,TMP=`, text that is not a signed decimal is no match |
| UdCo2S.OpenSerialPort | src/pkg/udco2s.py:60-72 | the stage returns normally exactly when opening and the buffer reset both succeed; either failure is `SerialPortOpenException`; the port is open afterwards unless the constructor failed |
| UdCo2S.CheckDeviceReady | src/pkg/udco2s.py:74-80 | the handshake passes exactly when `STA` is written and the stripped reply is `OK STA`; any other returned reply raises `DeviceNotReadyException` carrying it; a failed `STA` write or reply read raises the transport error itself, and an interrupted read raises `KeyboardInterrupt` |
| UdCo2S.ReadData | src/pkg/udco2s.py:117-127 | the loop performs only reads and exports, never raises `SerialPortCloseException`, and reading continuously it ends only by raising |
| UdCo2S.ReadDataExports | src/pkg/udco2s.py:117-127 | the exporter receives the leading run of data lines in order: all lines offered, or those up to and including the first one it refuses |
| UdCo2S.ReadDataExportError | src/pkg/udco2s.py:117-127 | the loop raises the exporter's error exactly when the exporter refuses one of the offered lines |
| UdCo2S.ReadDataConsumes | src/pkg/udco2s.py:117-127 | the loop makes exactly these `readline()` calls: when the exporter refuses a line, the leading data lines up to and including the refused one; otherwise, reading continuously, the leading data lines and the first read that is not data; otherwise, reading once, a single read |
| UdCo2S.ReadOnce | src/pkg/udco2s.py:99-100 | reading once exports the first line if it is data; it succeeds exactly when that line is data and its export succeeds; an empty line raises `DataReadTimeoutException`; a failed or interrupted read propagates; it makes one read |
| UdCo2S.ReadContinuously | src/pkg/udco2s.py:102-115 | reading continuously always returns normally, exporting the run of data lines up to the first empty line, failed read or interrupt, or up to the line the exporter refuses |
| UdCo2S.CloseSerialPort | src/pkg/udco2s.py:82-97 | the stop block writes `STP`, reads a reply and closes, and checks the reply only after closing; a failing write or read skips `close()`; every failure becomes `SerialPortCloseException` with its cause, except an interrupted read; the port ends closed exactly when `close()` ran and succeeded |
| UdCo2S.Engage | src/pkg/udco2s.py:44-51 | the `try` block after opening starts by writing `STA`, never writes `STP` or closes, and never raises `SerialPortCloseException` |
| UdCo2S.EngageRefused | src/pkg/udco2s.py:44-51 | without a successful handshake nothing is exported, and a returned reply other than `OK STA` ends the block after that one read with `DeviceNotReadyException` |
| UdCo2S.EngageOnce | src/pkg/udco2s.py:48-49 | after the handshake, once mode exports the next line if it is data, and succeeds exactly when that export does |
| UdCo2S.EngageContinuously | src/pkg/udco2s.py:50-51 | after the handshake, continuous mode returns normally having exported the run of data lines that follows |
| UdCo2S.EngageReads | src/pkg/udco2s.py:44-51 | the `try` block makes exactly the number of reads the handshake and the data loop account for |
| UdCo2S.Attempt | src/pkg/udco2s.py:44-51 | a failed open raises `SerialPortOpenException` with nothing written; after a successful open the buffer is reset before `STA` is written |
| UdCo2S.Read | src/pkg/udco2s.py:42-58 | if opening fails nothing else happens and the stop block does not run; if the reset fails the port is still open when `read` returns; otherwise the session starts open, reset, `STA`, and goes on afterwards |
| UdCo2S.ReadParts | src/pkg/udco2s.py:42-58 | after a successful open, `read` is the `try` block followed by the stop block, whose reply is the read after the last one of the `try` block, with the stop block's exception taking precedence |
| UdCo2S.ReadHandshakeGate | src/pkg/udco2s.py:44-51 | nothing reaches the exporter unless the port opened and the device answered `OK STA` |
| UdCo2S.ReadExportsEngaged | src/pkg/udco2s.py:42-58 | a session exports exactly what its `try` block exports |
| UdCo2S.ReadStopSequence | src/pkg/udco2s.py:56-58 | once `_open_serial_port` returned, that is when opening and the buffer reset both succeeded, `STP` is always written; the port is closed exactly when that write succeeded and the reply read returned, and closing is then the last action; the port ends closed exactly when `close()` also succeeded |
| UdCo2S.ReadExit | src/pkg/udco2s.py:44-58 | if the stop block succeeds, `read` ends as the `try` block did; otherwise it raises the stop block's `SerialPortCloseException`, or `KeyboardInterrupt` when the reply read was interrupted |
| SessionProperties.OnceStopReply | src/pkg/udco2s.py:82-86 | in once mode after a successful handshake, the stop block's reply is the third line read |
| SessionProperties.ReadOnceDelivers | src/pkg/udco2s.py:42-58 | a once-mode session that gets `OK STA`, a data line and `OK STP` exports that line, returns normally and closes the port |
| SessionProperties.ReadContinuouslyDelivers | src/pkg/udco2s.py:102-115 | a continuous session with a successful handshake and stop block returns normally, having exported every data line up to the first read that is empty, failed or interrupted, when the exporter accepts them all |
| SessionProperties.ReadNotReady | src/pkg/udco2s.py:74-80 | a reply other than `OK STA`, provided the reply read returned and the stop block that follows succeeds, makes `read` raise `DeviceNotReadyException` carrying the reply, having exported nothing |
| SessionProperties.ReadHandshakeError | src/pkg/udco2s.py:74-76 | a failed read of the handshake reply, provided the stop block that follows succeeds, makes `read` raise that transport error rather than `DeviceNotReadyException`, having exported nothing |
| SessionProperties.CloseFailureOverridesSuccess | src/pkg/udco2s.py:56-58 | a once-mode session that exported its line still raises `SerialPortCloseException` when `close()` fails, and the port is still open when `read` returns |
| SessionProperties.SampleSession | src/pkg/udco2s.py:42-58 | the exchange `OK STA`, `CO2=1000,HUM=45.5,TMP=25.3`, `OK STP` exports the sample line without its terminator, returns normally and closes the port |
| SessionProperties.SampleParses | src/pkg/parser.py:18-24 | that line parses to 1000 ppm, 45.5 % and 25.3 degrees |

## Left out

- Real pyserial I/O, timing and UTF-8 decoding are replaced by the scripted port. A decode error is a read error, and a timeout is an empty line.
- The constructor parameters of `UdCo2S` (port name, baud rate, timeout) only reach `serial.Serial`, so they do not appear.
- Logging and `print` are diagnostics without effect on the outcome, and are left out.
- Exception messages and `from e` chaining are left out. `DeviceNotReadyException` carries the reply, and `SerialPortCloseException` carries which step of the stop block failed.
- `KeyboardInterrupt` is modelled only where the program blocks, in `readline()`. An interrupt at any other instruction is not modelled.
- The `if sp` and `sp.is_open` conditions are modelled as "the port was opened and not yet closed". Nothing closes the port before the stop block, so the two coincide.
- `src/pkg/exporter.py` is modelled only as a sink whose `export()` may fail, which is `ExportError`. The SQLite exporter calls `parse` on every line (src/pkg/exporter.py:94) and catches only `sqlite3.Error` (src/pkg/exporter.py:110-111). A line that does not parse therefore fails the export with `ValueError`; in the model that is one `Failed` result of the sink.
- `src/pkg/create_exporter.py`, `src/run_scheduler.py` and `commitlint.config.js` are glue and configuration, and are not part of this model.
- `float()` of humidity and temperature is not modelled. The parsed sample keeps the exact decimal text (sign, integer digits, fraction digits) instead of binary floating point.
- `_open_serial_port` wraps only `serial.SerialException` (src/pkg/udco2s.py:69). `OpenFailed` and `ResetFailed` stand for that exception. Any other exception from `serial.Serial(...)` or `reset_input_buffer()`, such as a `ValueError` for an out-of-range parameter, would escape `read` as itself; the model has no event for it.
- Python's `\d` also matches non-ASCII decimal digits. The model accepts only `0`-`9`.
- Parser.ParseAnchored: states the refusal only for a leading space. `Parser.Parse` states it for every line that does not start with `CO2=`.

=== FILE: parser.dfy ===
/**
 The fixed-format sample parser: `UdCo2SDataParser.parse` applies the pattern
   CO2=(\d+),HUM=(\d+\.\d+),TMP=(-?\d+\.\d+)
 with `re.match`, which anchors the match at the start of the line only, so
 anything after a matching prefix is ignored. The pattern is written here as
 a hand-rolled scanner over the characters of the line. Humidity and
 temperature are kept as the exact decimal text the device sent (sign,
 integer digits, fraction digits) rather than as floats.
 */
module Parser {

  /** `\d`, restricted to the ASCII digits. */
  predicate IsDigit(c: char) {
    '0' <= c <= '9'
  }

  predicate AllDigits(s: string) {
    forall i :: 0 <= i < |s| ==> IsDigit(s[i])
  }

  /** `\d+`: a non-empty run of digits. */
  predicate IsDigits(s: string) {
    |s| > 0 && AllDigits(s)
  }

  /** `int(s)` for a string of digits; leading zeros are allowed. */
  function DigitsValue(s: string): nat
    requires AllDigits(s)
  {
    if |s| == 0 then 0
    else DigitsValue(s[..|s| - 1]) * 10 + (s[|s| - 1] as int - '0' as int)
  }

  /** `str(n)`: the canonical decimal text of `n`, which `int` reads back as `n`. */
  function NatToDigits(n: nat): (r: string)
    ensures IsDigits(r)
    ensures DigitsValue(r) == n
    ensures |r| > 1 ==> r[0] != '0'
  {
    var last := ['0' + (n % 10) as char];
    if n < 10 then last
    else
      var init := NatToDigits(n / 10);
      assert (init + last)[..|init|] == init;
      init + last
  }

  /**
   The default of `sys.get_int_max_str_digits()`: `int()` refuses, with a
   `ValueError`, a decimal string longer than this.
   */
  const IntMaxStrDigits := 4300

  /** A decimal number exactly as written in the line. */
  datatype Decimal = Decimal(negative: bool, whole: string, fraction: string) {
    /** `\d+\.\d+`, possibly after a minus sign. */
    predicate Valid() {
      IsDigits(whole) && IsDigits(fraction)
    }

    function Text(): string {
      (if negative then "-" else "") + whole + "." + fraction
    }

    function Length(): nat {
      (if negative then 1 else 0) + |whole| + 1 + |fraction|
    }
  }

  /** The `Udco2sData` record: one sample of the sensor. */
  datatype Udco2sData = Udco2sData(co2Ppm: nat, humidityPercentage: Decimal, temperatureCelsius: Decimal)

  /** The three named groups `co2`, `hum` and `tmp` of a successful match. */
  datatype Groups = Groups(co2: string, hum: Decimal, tmp: Decimal) {
    /** What the three groups may hold according to the pattern. */
    predicate Valid() {
      IsDigits(co2) && hum.Valid() && !hum.negative && tmp.Valid()
    }

    /** The text the whole pattern matched. */
    function Text(): string {
      "CO2=" + co2 + ",HUM=" + hum.Text() + ",TMP=" + tmp.Text()
    }

    /** Where the humidity text starts. */
    function HumAt(): nat {
      4 + |co2| + 5
    }

    /** Where the temperature text starts. */
    function TmpAt(): nat {
      HumAt() + hum.Length() + 5
    }

    function Length(): nat {
      TmpAt() + tmp.Length()
    }
  }

  datatype MatchResult = Matched(groups: Groups) | NoMatch

  datatype Scan = Scanned(value: Decimal, end: nat) | NoScan

  /** Why `parse` raised `ValueError`. */
  datatype ParseFailure =
    | InvalidFormat      // the pattern did not match
    | TooManyDigits      // `int()` refused the CO2 digits

  datatype ParseResult = Parsed(data: Udco2sData) | ValueError(failure: ParseFailure)

  /** `lit` occurs in `s` at position `i`. */
  predicate HasAt(s: string, i: nat, lit: string) {
    i + |lit| <= |s| && s[i..i + |lit|] == lit
  }

  /**
   `s[a:b]`, built one character at a time. `SliceIsSlice` shows it equals
   `s[a..b]`; the scanner uses this form because a native slice of an
   unknown line in its body makes every proof that unfolds the matcher
   reason about sequence extensionality, which is far more expensive for
   the solver than this recursive definition with its length fact.
   */
  function Slice(s: string, a: nat, b: nat): (r: string)
    requires a <= b <= |s|
    ensures |r| == b - a
    decreases b - a
  {
    if a == b then [] else [s[a]] + Slice(s, a + 1, b)
  }

  lemma {:induction false} SliceIsSlice(s: string, a: nat, b: nat)
    requires a <= b <= |s|
    ensures Slice(s, a, b) == s[a..b]
    decreases b - a
  {
    if a < b {
      SliceIsSlice(s, a + 1, b);
      assert s[a..b] == [s[a]] + s[a + 1..b];
    }
  }

  /** The end of the longest run of digits starting at `i`: greedy `\d*`. */
  function DigitRun(s: string, i: nat): (j: nat)
    requires i <= |s|
    ensures i <= j <= |s|
    decreases |s| - i
  {
    if i < |s| && IsDigit(s[i]) then DigitRun(s, i + 1) else i
  }

  /** The run is all digits and is followed by something that is not one. */
  lemma {:induction false} DigitRunSpec(s: string, i: nat)
    requires i <= |s|
    ensures var j := DigitRun(s, i);
            AllDigits(s[i..j]) && (j < |s| ==> !IsDigit(s[j]))
    decreases |s| - i
  {
    if i < |s| && IsDigit(s[i]) {
      DigitRunSpec(s, i + 1);
      var j := DigitRun(s, i);
      assert s[i..j] == [s[i]] + s[i + 1..j];
    }
  }

  /** The parts of the decimal `d` lie in `s` from position `i` on. */
  predicate DecimalAt(s: string, i: nat, d: Decimal) {
    var a := i + (if d.negative then 1 else 0);
    var b := a + |d.whole|;
    && (d.negative ==> i < |s| && s[i] == '-')
    && HasAt(s, a, d.whole)
    && b < |s| && s[b] == '.'
    && HasAt(s, b + 1, d.fraction)
  }

  /** The parts of the match `g` lie in `s` from its start on. */
  predicate GroupsAt(s: string, g: Groups) {
    && HasAt(s, 0, "CO2=")
    && HasAt(s, 4, g.co2)
    && HasAt(s, 4 + |g.co2|, ",HUM=")
    && DecimalAt(s, g.HumAt(), g.hum)
    && HasAt(s, g.HumAt() + g.hum.Length(), ",TMP=")
    && DecimalAt(s, g.TmpAt(), g.tmp)
  }

  /** `\d+\.\d+` at position `a`: the end of the match, and the decimal it spells. */
  function ScanUnsigned(s: string, a: nat): (r: Scan)
    requires a <= |s|
    ensures r.Scanned? ==> !r.value.negative && r.end == a + r.value.Length() <= |s|
  {
    var b := DigitRun(s, a);
    if b == a || b == |s| || s[b] != '.' then NoScan
    else
      var c := DigitRun(s, b + 1);
      if c == b + 1 then NoScan
      else Scanned(Decimal(false, Slice(s, a, b), Slice(s, b + 1, c)), c)
  }

  /** What `ScanUnsigned` finds is a well-formed decimal that lies at `a`, and is not followed by a digit. */
  lemma ScanUnsignedSound(s: string, a: nat)
    requires a <= |s|
    ensures var r := ScanUnsigned(s, a);
            r.Scanned? ==> r.value.Valid() && DecimalAt(s, a, r.value) && (r.end < |s| ==> !IsDigit(s[r.end]))
  {
    var b := DigitRun(s, a);
    if b != a && b != |s| && s[b] == '.' {
      var c := DigitRun(s, b + 1);
      if c != b + 1 {
        DigitRunSpec(s, a);
        DigitRunSpec(s, b + 1);
        SliceIsSlice(s, a, b);
        SliceIsSlice(s, b + 1, c);
        assert AllDigits(s[a..b]) && AllDigits(s[b + 1..c]);
      }
    }
  }

  /**
   `\d+\.\d+` at position `i`, preceded by an optional `-` when `signed`.
   Backtracking cannot help the pattern here: a digit run is always followed
   by a character that is not a digit, so the greedy scan is the only match.
   */
  function ScanDecimal(s: string, i: nat, signed: bool): (r: Scan)
    requires i <= |s|
    ensures r.Scanned? ==> (r.value.negative ==> signed) && r.end == i + r.value.Length() <= |s|
  {
    var negative := signed && i < |s| && s[i] == '-';
    var u := ScanUnsigned(s, if negative then i + 1 else i);
    if u.NoScan? then NoScan else Scanned(u.value.(negative := negative), u.end)
  }

  /** What `ScanDecimal` finds is a well-formed decimal that lies at `i`, and is not followed by a digit. */
  lemma ScanDecimalSound(s: string, i: nat, signed: bool)
    requires i <= |s|
    ensures var r := ScanDecimal(s, i, signed);
            r.Scanned? ==> r.value.Valid() && DecimalAt(s, i, r.value) && (r.end < |s| ==> !IsDigit(s[r.end]))
  {
    if signed && i < |s| && s[i] == '-' {
      ScanUnsignedSound(s, i + 1);
    } else {
      ScanUnsignedSound(s, i);
    }
  }

  /** `CO2_REGEX.match(s)`: the groups of the pattern matched at the start of `s`. */
  function MatchPrefix(s: string): (r: MatchResult)
    ensures r.Matched? ==> HasAt(s, 0, "CO2=") && !r.groups.hum.negative
  {
    if !HasAt(s, 0, "CO2=") then NoMatch
    else
      var b := DigitRun(s, 4);
      if b == 4 || !HasAt(s, b, ",HUM=") then NoMatch
      else MatchReadings(s, s[4..b])
  }

  /** The rest of the pattern, `HUM=` onwards, once `CO2=<co2>,HUM=` has matched. */
  function MatchReadings(s: string, co2: string): (r: MatchResult)
    requires 4 + |co2| + 5 <= |s|
    ensures r.Matched? ==> r.groups.co2 == co2 && !r.groups.hum.negative
  {
    var hum := ScanDecimal(s, 4 + |co2| + 5, false);
    if hum.NoScan? || !HasAt(s, hum.end, ",TMP=") then NoMatch
    else
      var tmp := ScanDecimal(s, hum.end + 5, true);
      if tmp.NoScan? then NoMatch
      else Matched(Groups(co2, hum.value, tmp.value))
  }

  /**
   What `MatchPrefix` matches is well formed, lies at the start of the line
   part by part, and is not followed by a digit.
   */
  lemma MatchPrefixSound(s: string)
    ensures var r := MatchPrefix(s);
            r.Matched? ==> r.groups.Valid() && GroupsAt(s, r.groups)
                           && (r.groups.Length() < |s| ==> !IsDigit(s[r.groups.Length()]))
  {
    if HasAt(s, 0, "CO2=") {
      var b := DigitRun(s, 4);
      if b != 4 && HasAt(s, b, ",HUM=") {
        DigitRunSpec(s, 4);
        MatchReadingsSound(s, s[4..b]);
      }
    }
  }

  lemma MatchReadingsSound(s: string, co2: string)
    requires IsDigits(co2) && HasAt(s, 0, "CO2=") && HasAt(s, 4, co2) && HasAt(s, 4 + |co2|, ",HUM=")
    ensures var r := MatchReadings(s, co2);
            r.Matched? ==> r.groups.Valid() && GroupsAt(s, r.groups)
                           && (r.groups.Length() < |s| ==> !IsDigit(s[r.groups.Length()]))
  {
    var r := MatchReadings(s, co2);
    if r.Matched? {
      var g := r.groups;
      MatchReadingsScans(s, co2);
      ScanDecimalSound(s, g.HumAt(), false);
      ScanDecimalSound(s, g.TmpAt(), true);
      GroupsAssembled(s, g);
    }
  }

  /** The converse of `MatchReadingsExact`: a match is made of two scans with `,TMP=` between them. */
  lemma MatchReadingsScans(s: string, co2: string)
    requires 4 + |co2| + 5 <= |s|
    ensures var r := MatchReadings(s, co2);
            r.Matched? ==> var g := r.groups;
                           && g.co2 == co2
                           && ScanDecimal(s, g.HumAt(), false) == Scanned(g.hum, g.HumAt() + g.hum.Length())
                           && HasAt(s, g.HumAt() + g.hum.Length(), ",TMP=")
                           && ScanDecimal(s, g.TmpAt(), true) == Scanned(g.tmp, g.Length())
  {
    var r := MatchReadings(s, co2);
    if r.Matched? {
      var g := r.groups;
      var hum := ScanDecimal(s, 4 + |co2| + 5, false);
      var tmp := ScanDecimal(s, hum.end + 5, true);
      assert g == Groups(co2, hum.value, tmp.value);
      assert hum.end == g.HumAt() + g.hum.Length();
      assert g.TmpAt() == hum.end + 5;
      assert tmp.end == g.Length();
    }
  }

  /** The parts found one after the other make up a match. */
  lemma GroupsAssembled(s: string, g: Groups)
    requires IsDigits(g.co2) && HasAt(s, 0, "CO2=") && HasAt(s, 4, g.co2) && HasAt(s, 4 + |g.co2|, ",HUM=")
    requires g.hum.Valid() && !g.hum.negative && DecimalAt(s, g.HumAt(), g.hum)
    requires HasAt(s, g.HumAt() + g.hum.Length(), ",TMP=")
    requires g.tmp.Valid() && DecimalAt(s, g.TmpAt(), g.tmp)
    requires g.Length() < |s| ==> !IsDigit(s[g.Length()])
    ensures g.Valid() && GroupsAt(s, g)
  {
  }

  /** `a + b` occurs at `i` exactly when `a` does and `b` follows it. */
  lemma HasAtConcat(s: string, i: nat, a: string, b: string)
    ensures HasAt(s, i, a + b) <==> HasAt(s, i, a) && HasAt(s, i + |a|, b)
  {
    var j := i + |a|;
    var k := j + |b|;
    if k <= |s| {
      assert s[i..k] == s[i..j] + s[j..k];
      if s[i..k] == a + b {
        assert s[i..j] == (a + b)[..|a|];
        assert s[j..k] == (a + b)[|a|..];
      }
    }
  }

  lemma HasAtChar(s: string, i: nat, c: char)
    ensures HasAt(s, i, [c]) <==> i < |s| && s[i] == c
  {
    if i < |s| {
      assert s[i..i + 1] == [s[i]];
    }
  }

  /** The text of a decimal occurs at `i` exactly when its parts do. */
  lemma DecimalTextAt(s: string, i: nat, d: Decimal)
    ensures |d.Text()| == d.Length()
    ensures HasAt(s, i, d.Text()) <==> DecimalAt(s, i, d)
  {
    var sign := if d.negative then "-" else "";
    var b := i + |sign| + |d.whole|;
    assert d.Text() == sign + d.whole + "." + d.fraction;
    HasAtConcat(s, i, sign + d.whole + ".", d.fraction);
    HasAtConcat(s, i, sign + d.whole, ".");
    HasAtConcat(s, i, sign, d.whole);
    HasAtChar(s, b, '.');
    SignAt(s, i, d.negative);
  }

  /** The optional minus sign of a decimal occurs at `i` exactly when the sign calls for it. */
  lemma SignAt(s: string, i: nat, negative: bool)
    ensures HasAt(s, i, if negative then "-" else "") <==> i <= |s| && (negative ==> i < |s| && s[i] == '-')
  {
    HasAtChar(s, i, '-');
  }

  /** The text of a match occurs at the start of `s` exactly when its parts do. */
  lemma GroupsTextAt(s: string, g: Groups)
    ensures |g.Text()| == g.Length()
    ensures HasAt(s, 0, g.Text()) <==> GroupsAt(s, g)
  {
    var head := "CO2=" + g.co2 + ",HUM=";
    var p3 := head + g.hum.Text();
    var p4 := p3 + ",TMP=";
    assert g.Text() == p4 + g.tmp.Text();
    HeadAt(s, g.co2);
    DecimalTextAt(s, g.HumAt(), g.hum);
    DecimalTextAt(s, g.TmpAt(), g.tmp);
    HasAtConcat(s, 0, p4, g.tmp.Text());
    HasAtConcat(s, 0, p3, ",TMP=");
    HasAtConcat(s, 0, head, g.hum.Text());
  }

  /** The groups `g` were matched at the start of `s`, and `d` is what `parse` builds from them. */
  ghost predicate Describes(g: Groups, s: string, d: Udco2sData) {
    && g.Valid()
    && HasAt(s, 0, g.Text())
    && (|g.Text()| < |s| ==> !IsDigit(s[|g.Text()|]))
    && |g.co2| <= IntMaxStrDigits
    && d == Udco2sData(DigitsValue(g.co2), g.hum, g.tmp)
  }

  /**
   `UdCo2SDataParser.parse`: a sample built from the groups of a prefix match,
   or `ValueError`; never a partly filled record.
   */
  function Parse(dataStr: string): (r: ParseResult)
    ensures !HasAt(dataStr, 0, "CO2=") ==> r == ValueError(InvalidFormat)
    ensures r.Parsed? ==> exists g :: Describes(g, dataStr, r.data)
    ensures r.Parsed? ==> !r.data.humidityPercentage.negative
  {
    match MatchPrefix(dataStr)
    case NoMatch => ValueError(InvalidFormat)
    case Matched(g) =>
      if |g.co2| > IntMaxStrDigits then ValueError(TooManyDigits)
      else
        MatchPrefixSound(dataStr);
        var d := Udco2sData(DigitsValue(g.co2), g.hum, g.tmp);
        GroupsTextAt(dataStr, g);
        assert Describes(g, dataStr, d);
        Parsed(d)
  }

  /** The text of a sample in the device's line format, with the CO2 value written as `str()` would. */
  function Format(d: Udco2sData): string {
    Groups(NatToDigits(d.co2Ppm), d.humidityPercentage, d.temperatureCelsius).Text()
  }

  lemma {:induction false} DigitRunExact(s: string, i: nat, ds: string)
    requires AllDigits(ds) && HasAt(s, i, ds)
    requires i + |ds| < |s| ==> !IsDigit(s[i + |ds|])
    ensures DigitRun(s, i) == i + |ds|
    decreases |ds|
  {
    if |ds| > 0 {
      assert s[i] == ds[0];
      assert s[i + 1..i + |ds|] == ds[1..];
      DigitRunExact(s, i + 1, ds[1..]);
    }
  }

  lemma ScanUnsignedExact(s: string, a: nat, whole: string, fraction: string)
    requires IsDigits(whole) && IsDigits(fraction)
    requires HasAt(s, a, whole)
    requires a + |whole| < |s| && s[a + |whole|] == '.'
    requires HasAt(s, a + |whole| + 1, fraction)
    requires a + |whole| + 1 + |fraction| < |s| ==> !IsDigit(s[a + |whole| + 1 + |fraction|])
    ensures ScanUnsigned(s, a) == Scanned(Decimal(false, whole, fraction), a + |whole| + 1 + |fraction|)
  {
    var b := a + |whole|;
    DigitRunExact(s, a, whole);
    DigitRunExact(s, b + 1, fraction);
    SliceAt(s, a, whole);
    SliceAt(s, b + 1, fraction);
  }

  lemma SliceAt(s: string, i: nat, lit: string)
    requires HasAt(s, i, lit)
    ensures Slice(s, i, i + |lit|) == lit
  {
    SliceIsSlice(s, i, i + |lit|);
  }

  lemma ScanDecimalExact(s: string, i: nat, d: Decimal, signed: bool)
    requires d.Valid() && (d.negative ==> signed)
    requires DecimalAt(s, i, d)
    requires i + d.Length() < |s| ==> !IsDigit(s[i + d.Length()])
    ensures ScanDecimal(s, i, signed) == Scanned(d, i + d.Length())
  {
    if d.negative {
      ScanUnsignedExact(s, i + 1, d.whole, d.fraction);
    } else {
      if signed {
        assert s[i] == d.whole[0];
      }
      ScanUnsignedExact(s, i, d.whole, d.fraction);
    }
  }

  /** Digits that are not followed by `.` and more digits are no decimal. */
  lemma ScanUnsignedNoFraction(s: string, a: nat, whole: string)
    requires a <= |s| && IsDigits(whole) && HasAt(s, a, whole)
    requires a + |whole| < |s| ==> s[a + |whole|] != '.' && !IsDigit(s[a + |whole|])
    ensures ScanUnsigned(s, a) == NoScan
  {
    DigitRunExact(s, a, whole);
  }

  /** Digits after an optional sign that are not followed by `.` and more digits are no decimal. */
  lemma ScanDecimalNoFraction(s: string, i: nat, signed: bool, negative: bool, whole: string)
    requires i <= |s| && IsDigits(whole) && (negative ==> signed)
    requires negative ==> i < |s| && s[i] == '-'
    requires HasAt(s, i + (if negative then 1 else 0), whole)
    requires var e := i + (if negative then 1 else 0) + |whole|;
             e < |s| ==> s[e] != '.' && !IsDigit(s[e])
    ensures ScanDecimal(s, i, signed) == NoScan
  {
    if negative {
      ScanUnsignedNoFraction(s, i + 1, whole);
    } else {
      if signed {
        assert s[i] == whole[0];
      }
      ScanUnsignedNoFraction(s, i, whole);
    }
  }

  /** The same parts lie in any extension of a line. */
  lemma HasAtExtend(s: string, t: string, i: nat, lit: string)
    requires HasAt(s, i, lit)
    ensures HasAt(s + t, i, lit)
  {
    assert (s + t)[i..i + |lit|] == s[i..i + |lit|];
  }

  lemma DecimalAtExtend(s: string, t: string, i: nat, d: Decimal)
    requires DecimalAt(s, i, d)
    ensures DecimalAt(s + t, i, d)
  {
    var a := i + (if d.negative then 1 else 0);
    HasAtExtend(s, t, a, d.whole);
    HasAtExtend(s, t, a + |d.whole| + 1, d.fraction);
  }

  lemma GroupsAtExtend(s: string, t: string, g: Groups)
    requires GroupsAt(s, g)
    ensures GroupsAt(s + t, g)
  {
    HasAtExtend(s, t, 0, "CO2=");
    HasAtExtend(s, t, 4, g.co2);
    HasAtExtend(s, t, 4 + |g.co2|, ",HUM=");
    DecimalAtExtend(s, t, g.HumAt(), g.hum);
    HasAtExtend(s, t, g.HumAt() + g.hum.Length(), ",TMP=");
    DecimalAtExtend(s, t, g.TmpAt(), g.tmp);
  }

  /** Once `CO2=<co2>,HUM=` lies at the start, the match goes on with the readings. */
  lemma MatchPrefixHead(s: string, co2: string)
    requires IsDigits(co2) && HasAt(s, 0, "CO2=") && HasAt(s, 4, co2) && HasAt(s, 4 + |co2|, ",HUM=")
    ensures MatchPrefix(s) == MatchReadings(s, co2)
  {
    var b := 4 + |co2|;
    assert s[b] == s[b..b + 5][0];
    DigitRunExact(s, 4, co2);
  }

  /** Humidity at `h` followed by `,TMP=` scans to exactly its parts. */
  lemma HumidityScans(s: string, h: nat, hum: Decimal)
    requires hum.Valid() && !hum.negative && DecimalAt(s, h, hum)
    requires HasAt(s, h + hum.Length(), ",TMP=")
    ensures ScanDecimal(s, h, false) == Scanned(hum, h + hum.Length())
  {
    var e := h + hum.Length();
    assert s[e] == s[e..e + 5][0];
    ScanDecimalExact(s, h, hum, false);
  }

  /** Temperature followed by anything but a digit scans to exactly its parts. */
  lemma TemperatureScans(s: string, g: Groups)
    requires g.tmp.Valid() && DecimalAt(s, g.TmpAt(), g.tmp)
    requires g.Length() < |s| ==> !IsDigit(s[g.Length()])
    ensures ScanDecimal(s, g.TmpAt(), true) == Scanned(g.tmp, g.Length())
  {
    ScanDecimalExact(s, g.TmpAt(), g.tmp, true);
  }

  /** The readings match when both decimals scan and `,TMP=` separates them. */
  lemma MatchReadingsExact(s: string, g: Groups)
    requires g.HumAt() <= |s|
    requires ScanDecimal(s, g.HumAt(), false) == Scanned(g.hum, g.HumAt() + g.hum.Length())
    requires HasAt(s, g.HumAt() + g.hum.Length(), ",TMP=")
    requires ScanDecimal(s, g.TmpAt(), true) == Scanned(g.tmp, g.Length())
    ensures MatchReadings(s, g.co2) == Matched(g)
  {
  }

  /**
   The converse of `MatchPrefix`'s contract: a line whose start holds the
   parts of a match, followed by anything but a digit, matches with exactly
   those groups.
   */
  lemma MatchPrefixExact(s: string, g: Groups)
    requires g.Valid() && GroupsAt(s, g)
    requires g.Length() < |s| ==> !IsDigit(s[g.Length()])
    ensures MatchPrefix(s) == Matched(g)
  {
    HumidityScans(s, g.HumAt(), g.hum);
    TemperatureScans(s, g);
    MatchReadingsExact(s, g);
    MatchPrefixHead(s, g.co2);
  }

  /**
   Every line that starts with text of the pattern's form, and goes on with
   anything but a digit, matches with exactly those groups.
   */
  lemma MatchPrefixComplete(g: Groups, rest: string)
    requires g.Valid()
    requires |rest| > 0 ==> !IsDigit(rest[0])
    ensures MatchPrefix(g.Text() + rest) == Matched(g)
  {
    var s := g.Text() + rest;
    HasAtConcat(s, 0, g.Text(), rest);
    assert HasAt(s, 0, g.Text());
    GroupsTextAt(s, g);
    if g.Length() < |s| {
      assert s[g.Length()] == rest[0];
    }
    MatchPrefixExact(s, g);
  }

  /**
   A line of the form CO2=<d+>,HUM=<d+>.<d+>,TMP=[-]<d+>.<d+>, followed by
   anything that does not begin with a digit, parses when the CO2 digits are
   within `int()`'s limit, and `co2_ppm` is the value of those digits.
   */
  lemma ParseWellFormed(g: Groups, rest: string)
    requires g.Valid() && |g.co2| <= IntMaxStrDigits
    requires |rest| > 0 ==> !IsDigit(rest[0])
    ensures Parse(g.Text() + rest) == Parsed(Udco2sData(DigitsValue(g.co2), g.hum, g.tmp))
  {
    MatchPrefixComplete(g, rest);
  }

  /** More CO2 digits than `int()` accepts give `ValueError`, even though the pattern matched. */
  lemma ParseTooManyDigits(g: Groups, rest: string)
    requires g.Valid() && |g.co2| > IntMaxStrDigits
    requires |rest| > 0 ==> !IsDigit(rest[0])
    ensures Parse(g.Text() + rest) == ValueError(TooManyDigits)
  {
    MatchPrefixComplete(g, rest);
  }

  /**
   Rendering a sample that `parse` could produce (non-negative humidity,
   well-formed decimals, a CO2 value within `int()`'s digit limit) in the
   line format and parsing it back gives the same sample.
   */
  lemma ParseRoundTrip(d: Udco2sData)
    requires d.humidityPercentage.Valid() && !d.humidityPercentage.negative
    requires d.temperatureCelsius.Valid()
    requires |NatToDigits(d.co2Ppm)| <= IntMaxStrDigits
    ensures Parse(Format(d)) == Parsed(d)
  {
    var g := Groups(NatToDigits(d.co2Ppm), d.humidityPercentage, d.temperatureCelsius);
    assert g.Text() + [] == g.Text();
    ParseWellFormed(g, []);
  }

  /**
   The match is a prefix match: appending text that does not begin with a
   digit to a line that parses leaves the result unchanged.
   */
  lemma ParsePrefixStable(s: string, t: string)
    requires Parse(s).Parsed?
    requires |t| > 0 ==> !IsDigit(t[0])
    ensures Parse(s + t) == Parse(s)
  {
    var g :| Describes(g, s, Parse(s).data);
    GroupsTextAt(s, g);
    assert MatchPrefix(s) == Matched(g) by {
      MatchPrefixExact(s, g);
    }
    assert MatchPrefix(s + t) == Matched(g) by {
      GroupsAtExtend(s, t, g);
      var n := g.Length();
      if n < |s + t| {
        assert (s + t)[n] == if n < |s| then s[n] else t[0];
      }
      MatchPrefixExact(s + t, g);
    }
  }

  /** The match is anchored: a line with anything before `CO2=`, such as a space, is refused. */
  lemma ParseAnchored(s: string)
    ensures Parse(" " + s) == ValueError(InvalidFormat)
  {
    assert (" " + s)[0] == ' ';
  }

  /** A line starts `CO2=<co2>,HUM=` exactly when its parts lie where they belong. */
  lemma HeadAt(s: string, co2: string)
    ensures HasAt(s, 0, "CO2=" + co2 + ",HUM=") <==> HasAt(s, 0, "CO2=") && HasAt(s, 4, co2) && HasAt(s, 4 + |co2|, ",HUM=")
  {
    HasAtConcat(s, 0, "CO2=" + co2, ",HUM=");
    HasAtConcat(s, 0, "CO2=", co2);
  }

  /** A line whose humidity is not `\d+\.\d+` does not match. */
  lemma MatchPrefixNoHumidity(s: string, co2: string)
    requires IsDigits(co2) && HasAt(s, 0, "CO2=" + co2 + ",HUM=")
    requires ScanDecimal(s, 4 + |co2| + 5, false) == NoScan
    ensures MatchPrefix(s) == NoMatch
  {
    HeadAt(s, co2);
    MatchPrefixHead(s, co2);
  }

  /** Humidity cannot be negative: a `-` right after `HUM=` fails the match. */
  lemma NegativeHumidityRejected(co2: string, rest: string)
    requires IsDigits(co2)
    ensures Parse("CO2=" + co2 + ",HUM=-" + rest) == ValueError(InvalidFormat)
  {
    var s := "CO2=" + co2 + ",HUM=-" + rest;
    var i := 4 + |co2| + 5;
    assert s == "CO2=" + co2 + ",HUM=" + ("-" + rest);
    HasAtConcat(s, 0, "CO2=" + co2 + ",HUM=", "-" + rest);
    assert s[i] == '-';
    MatchPrefixNoHumidity(s, co2);
  }

  /** The humidity fraction is mandatory: `HUM=<digits>` followed by anything but `.` or a digit fails. */
  lemma HumidityFractionRequired(co2: string, whole: string, rest: string)
    requires IsDigits(co2) && IsDigits(whole)
    requires |rest| > 0 ==> rest[0] != '.' && !IsDigit(rest[0])
    ensures Parse("CO2=" + co2 + ",HUM=" + whole + rest) == ValueError(InvalidFormat)
  {
    var head := "CO2=" + co2 + ",HUM=";
    var s := head + whole + rest;
    var i := |head|;
    HasAtConcat(s, 0, head + whole, rest);
    HasAtConcat(s, 0, head, whole);
    if i + |whole| < |s| {
      assert s[i + |whole|] == rest[0];
    }
    ScanDecimalNoFraction(s, i, false, false, whole);
    MatchPrefixNoHumidity(s, co2);
  }

  /** Temperature alone may carry a minus sign. */
  lemma NegativeTemperatureAccepted(co2: string, hum: Decimal, whole: string, fraction: string)
    requires IsDigits(co2) && |co2| <= IntMaxStrDigits
    requires hum.Valid() && !hum.negative
    requires IsDigits(whole) && IsDigits(fraction)
    ensures Parse("CO2=" + co2 + ",HUM=" + hum.Text() + ",TMP=" + Decimal(true, whole, fraction).Text())
         == Parsed(Udco2sData(DigitsValue(co2), hum, Decimal(true, whole, fraction)))
  {
    var g := Groups(co2, hum, Decimal(true, whole, fraction));
    assert g.Text() + [] == g.Text();
    ParseWellFormed(g, []);
  }

  /** A line whose temperature is not `-?\d+\.\d+` does not match. */
  lemma MatchPrefixNoTemperature(s: string, co2: string, hum: Decimal)
    requires IsDigits(co2) && hum.Valid() && !hum.negative
    requires HasAt(s, 0, "CO2=" + co2 + ",HUM=" + hum.Text() + ",TMP=")
    requires ScanDecimal(s, 4 + |co2| + 5 + hum.Length() + 5, true) == NoScan
    ensures MatchPrefix(s) == NoMatch
  {
    var h := 4 + |co2| + 5;
    HumidityAt(s, co2, hum);
    HumidityScans(s, h, hum);
    MatchPrefixHead(s, co2);
    MatchReadingsNoTemperature(s, co2, hum);
  }

  /** Where the parts before the temperature lie in a line that starts `CO2=<co2>,HUM=<hum>,TMP=`. */
  lemma HumidityAt(s: string, co2: string, hum: Decimal)
    requires HasAt(s, 0, "CO2=" + co2 + ",HUM=" + hum.Text() + ",TMP=")
    ensures HasAt(s, 0, "CO2=") && HasAt(s, 4, co2) && HasAt(s, 4 + |co2|, ",HUM=")
    ensures DecimalAt(s, 4 + |co2| + 5, hum) && HasAt(s, 4 + |co2| + 5 + hum.Length(), ",TMP=")
  {
    var head := "CO2=" + co2 + ",HUM=";
    HasAtConcat(s, 0, head + hum.Text(), ",TMP=");
    HasAtConcat(s, 0, head, hum.Text());
    HeadAt(s, co2);
    DecimalTextAt(s, |head|, hum);
  }

  /** A humidity that scans, followed by `,TMP=` and no temperature, is no match. */
  lemma MatchReadingsNoTemperature(s: string, co2: string, hum: Decimal)
    requires 4 + |co2| + 5 <= |s|
    requires ScanDecimal(s, 4 + |co2| + 5, false) == Scanned(hum, 4 + |co2| + 5 + hum.Length())
    requires HasAt(s, 4 + |co2| + 5 + hum.Length(), ",TMP=")
    requires ScanDecimal(s, 4 + |co2| + 5 + hum.Length() + 5, true) == NoScan
    ensures MatchReadings(s, co2) == NoMatch
  {
  }

  /** The temperature fraction is mandatory: `TMP=[-]<digits>` followed by anything but `.` or a digit fails. */
  lemma TemperatureFractionRequired(co2: string, hum: Decimal, negative: bool, whole: string, rest: string)
    requires IsDigits(co2) && hum.Valid() && !hum.negative && IsDigits(whole)
    requires |rest| > 0 ==> rest[0] != '.' && !IsDigit(rest[0])
    ensures Parse("CO2=" + co2 + ",HUM=" + hum.Text() + ",TMP=" + (if negative then "-" else "") + whole + rest)
         == ValueError(InvalidFormat)
  {
    var head := "CO2=" + co2 + ",HUM=" + hum.Text() + ",TMP=";
    var s := head + (if negative then "-" else "") + whole + rest;
    TemperatureWithoutFraction(head, negative, whole, rest);
    DecimalTextAt(s, 0, hum);
    MatchPrefixNoTemperature(s, co2, hum);
  }

  /** After any `head`, an optional sign and digits not followed by `.` or a digit do not scan as a decimal. */
  lemma TemperatureWithoutFraction(head: string, negative: bool, whole: string, rest: string)
    requires IsDigits(whole)
    requires |rest| > 0 ==> rest[0] != '.' && !IsDigit(rest[0])
    ensures var s := head + (if negative then "-" else "") + whole + rest;
            HasAt(s, 0, head) && ScanDecimal(s, |head|, true) == NoScan
  {
    var sign := if negative then "-" else "";
    var s := head + sign + whole + rest;
    var i := |head|;
    HasAtConcat(s, 0, head + sign + whole, rest);
    HasAtConcat(s, 0, head + sign, whole);
    HasAtConcat(s, 0, head, sign);
    HasAtChar(s, i, '-');
    if i + |sign| + |whole| < |s| {
      assert s[i + |sign| + |whole|] == rest[0];
    }
    ScanDecimalNoFraction(s, i, true, negative, whole);
  }
}

=== FILE: pystr.dfy ===
/**
 The part of Python's `str` the sensor code relies on: `str.strip()` with no
 argument, applied to every line read from the serial port before it is
 compared with a reply or handed to the sink.
 */
module PyStr {

  /** `str.isspace()` for one character: exactly the characters `strip()` removes. */
  predicate IsSpace(c: char) {
    || c == ' '
    || ('\t' <= c <= '\r')
    || ('\U{1C}' <= c <= '\U{1F}')
    || c == '\U{85}' || c == '\U{A0}' || c == '\U{1680}'
    || ('\U{2000}' <= c <= '\U{200A}')
    || c == '\U{2028}' || c == '\U{2029}' || c == '\U{202F}' || c == '\U{205F}' || c == '\U{3000}'
  }

  predicate AllSpace(s: string) {
    forall i :: 0 <= i < |s| ==> IsSpace(s[i])
  }

  /** `s.lstrip()`: drop leading whitespace. */
  function StripStart(s: string): string {
    if |s| > 0 && IsSpace(s[0]) then StripStart(s[1..]) else s
  }

  /** `s.rstrip()`: drop trailing whitespace. */
  function StripEnd(s: string): string {
    if |s| > 0 && IsSpace(s[|s| - 1]) then StripEnd(s[..|s| - 1]) else s
  }

  /** `s.strip()`. */
  function Strip(s: string): string {
    StripEnd(StripStart(s))
  }

  /** Where the stripped text starts inside the original string. */
  function StripOffset(s: string): nat {
    StripStartSpec(s);
    |s| - |StripStart(s)|
  }

  /** `lstrip()` leaves a suffix, removes only whitespace, and stops at the first other character. */
  lemma {:induction false} StripStartSpec(s: string)
    ensures |StripStart(s)| <= |s| && StripStart(s) == s[|s| - |StripStart(s)|..]
    ensures AllSpace(s[..|s| - |StripStart(s)|])
    ensures |StripStart(s)| > 0 ==> !IsSpace(StripStart(s)[0])
  {
    if |s| > 0 && IsSpace(s[0]) {
      StripStartSpec(s[1..]);
      var r := StripStart(s);
      assert s[..|s| - |r|] == [s[0]] + s[1..][..|s| - 1 - |r|];
    }
  }

  /** `rstrip()` leaves a prefix, removes only whitespace, and stops at the last other character. */
  lemma {:induction false} StripEndSpec(s: string)
    ensures |StripEnd(s)| <= |s| && StripEnd(s) == s[..|StripEnd(s)|]
    ensures AllSpace(s[|StripEnd(s)|..])
    ensures |StripEnd(s)| > 0 ==> !IsSpace(StripEnd(s)[|StripEnd(s)| - 1])
  {
    if |s| > 0 && IsSpace(s[|s| - 1]) {
      var u := s[..|s| - 1];
      StripEndSpec(u);
      var r := StripEnd(s);
      assert s[|r|..] == u[|r|..] + [s[|s| - 1]];
    }
  }

  /**
   `s.strip()` is the longest slice of `s` that neither starts nor ends with
   whitespace, surrounded in `s` by whitespace only; it is empty exactly when
   `s` is all whitespace.
   */
  lemma StripSpec(s: string)
    ensures StripOffset(s) + |Strip(s)| <= |s|
    ensures Strip(s) == s[StripOffset(s)..StripOffset(s) + |Strip(s)|]
    ensures AllSpace(s[..StripOffset(s)]) && AllSpace(s[StripOffset(s) + |Strip(s)|..])
    ensures |Strip(s)| > 0 ==> !IsSpace(Strip(s)[0]) && !IsSpace(Strip(s)[|Strip(s)| - 1])
    ensures Strip(s) == [] <==> AllSpace(s)
  {
    var u := StripStart(s);
    var o := StripOffset(s);
    StripStartSpec(s);
    StripEndSpec(u);
    var r := Strip(s);
    assert r == u[..|r|];
    assert s[o + |r|..] == u[|r|..];
    if r == [] {
      assert |u| == 0;
      assert s[..o] == s;
    } else {
      assert r[0] == s[o];
      assert !AllSpace(s);
    }
  }

  /** Whitespace padding around text that has none at its ends is exactly what `strip()` removes. */
  lemma {:induction false} StripPadded(pre: string, t: string, post: string)
    requires AllSpace(pre) && AllSpace(post)
    requires |t| > 0 ==> !IsSpace(t[0]) && !IsSpace(t[|t| - 1])
    ensures Strip(pre + t + post) == t
  {
    var s := pre + t + post;
    if |t| == 0 {
      StripSpec(s);
      assert forall i :: 0 <= i < |s| ==> IsSpace(s[i]) by {
        forall i | 0 <= i < |s| ensures IsSpace(s[i]) {
          if i < |pre| { assert s[i] == pre[i]; } else { assert s[i] == post[i - |pre|]; }
        }
      }
    } else {
      StripStartPadded(pre, t + post);
      assert s == pre + (t + post);
      StripEndPadded(t, post);
    }
  }

  lemma {:induction false} StripStartPadded(pre: string, u: string)
    requires AllSpace(pre)
    requires |u| > 0 ==> !IsSpace(u[0])
    ensures StripStart(pre + u) == u
    decreases |pre|
  {
    if |pre| > 0 {
      assert (pre + u)[1..] == pre[1..] + u;
      StripStartPadded(pre[1..], u);
    }
  }

  lemma {:induction false} StripEndPadded(t: string, post: string)
    requires AllSpace(post)
    requires |t| > 0 ==> !IsSpace(t[|t| - 1])
    ensures StripEnd(t + post) == t
    decreases |post|
  {
    if |post| > 0 {
      var s := t + post;
      assert s[..|s| - 1] == t + post[..|post| - 1];
      StripEndPadded(t, post[..|post| - 1]);
    } else {
      assert t + post == t;
    }
  }

  /** Stripping twice changes nothing more. */
  lemma StripIdempotent(s: string)
    ensures Strip(Strip(s)) == Strip(s)
  {
    StripSpec(s);
    StripPadded([], Strip(s), []);
    assert [] + Strip(s) + [] == Strip(s);
  }
}

=== FILE: session_properties.dfy ===
/**
 What one call of `UdCo2S.read` does from start to finish, put together from
 the stage lemmas of `UdCo2S`: the common outcomes of a one-shot and of a
 continuous session, how a failing stop block overrides the outcome of the
 session, and one concrete exchange whose exported line parses to the
 sample the device sent.
 */
module SessionProperties {
  import opened PyStr
  import opened Parser
  import opened UdCo2S

  /**
   A one-shot read against a device that answers `OK STA`, then a data line,
   then `OK STP`, with an exporter that accepts the line: the line is
   exported, `read` returns normally and the port is closed.
   */
  lemma ReadOnceDelivers(dev: Device, input: seq<ReadEvent>, exports: seq<IoResult>)
    requires HandshakeSucceeds(dev, input)
    requires IsData(At(input, 1)) && ExportAt(exports, 0) == Done
    requires StopSucceeds(dev, At(input, 2))
    ensures Read(dev, input, exports, true).exit == Normal
    ensures Exported(Read(dev, input, exports, true).trace) == [Response(At(input, 1))]
    ensures !Read(dev, input, exports, true).portOpen
  {
    var w := World(input, exports, true);
    var e := Engage(dev, w, true);
    OnceStopReply(dev, input, exports);
    ReadParts(dev, input, exports, true);
    ReadExit(dev, input, exports, true);
    ReadStopSequence(dev, input, exports, true);
    EngageOnce(dev, w);
    ReadExportsEngaged(dev, input, exports, true);
  }

  /** After a successful handshake, a one-shot read takes its stop reply from the third read. */
  lemma OnceStopReply(dev: Device, input: seq<ReadEvent>, exports: seq<IoResult>)
    requires HandshakeSucceeds(dev, input)
    ensures StopReply(dev, input, exports, true) == At(input, 2)
  {
    assert TryReads(dev, input, exports, true) == 2 by {
      if Refuses(Offered(Rest(input), false), exports) {
        assert Offered(Rest(input), false) <= 1;
      }
    }
  }

  /**
   A continuous read against a device that answers `OK STA` returns
   normally once the stop block succeeds, whatever ended the data loop, and
   the exporter receives every data line up to the first empty read,
   failed read or interrupt, as long as it accepts them all.
   */
  lemma ReadContinuouslyDelivers(dev: Device, input: seq<ReadEvent>, exports: seq<IoResult>)
    requires HandshakeSucceeds(dev, input)
    requires !Refuses(|DataLines(Rest(input))|, exports)
    requires StopSucceeds(dev, At(input, |DataLines(Rest(input))| + 2))
    ensures Read(dev, input, exports, false).exit == Normal
    ensures Exported(Read(dev, input, exports, false).trace) == DataLines(Rest(input))
    ensures !Read(dev, input, exports, false).portOpen
  {
    var w := World(input, exports, true);
    assert TryReads(dev, input, exports, false) == |DataLines(Rest(input))| + 2;
    ReadParts(dev, input, exports, false);
    ReadExit(dev, input, exports, false);
    ReadStopSequence(dev, input, exports, false);
    EngageContinuously(dev, w);
    ReadExportsEngaged(dev, input, exports, false);
  }

  /**
   A reply other than `OK STA` makes `read` raise `DeviceNotReadyException`
   carrying the reply, having exported nothing, provided the stop block that
   follows succeeds; the stop block reads the very next line.
   */
  lemma ReadNotReady(dev: Device, input: seq<ReadEvent>, exports: seq<IoResult>, isOnce: bool)
    requires dev.open == Opened && dev.startWrite == Done
    requires Returned(At(input, 0)) && Response(At(input, 0)) != ReadyReply
    requires StopSucceeds(dev, At(input, 1))
    ensures Read(dev, input, exports, isOnce).exit == Raise(DeviceNotReadyException(Response(At(input, 0))))
    ensures Exported(Read(dev, input, exports, isOnce).trace) == []
  {
    var w := World(input, exports, true);
    ReadParts(dev, input, exports, isOnce);
    ReadExit(dev, input, exports, isOnce);
    EngageRefused(dev, w, isOnce);
    ReadHandshakeGate(dev, input, exports, isOnce);
  }

  /**
   A failed read of the handshake reply is not turned into
   `DeviceNotReadyException`: provided the stop block that follows succeeds,
   `read` raises the transport error itself, having exported nothing.
   */
  lemma ReadHandshakeError(dev: Device, input: seq<ReadEvent>, exports: seq<IoResult>, isOnce: bool)
    requires dev.open == Opened && dev.startWrite == Done
    requires At(input, 0) == ReadError
    requires StopSucceeds(dev, At(input, 1))
    ensures Read(dev, input, exports, isOnce).exit == Raise(TransportError)
    ensures Exported(Read(dev, input, exports, isOnce).trace) == []
  {
    var w := World(input, exports, true);
    ReadParts(dev, input, exports, isOnce);
    ReadExit(dev, input, exports, isOnce);
    EngageRefused(dev, w, isOnce);
    ReadHandshakeGate(dev, input, exports, isOnce);
  }

  /**
   The `finally` block has the last word: a one-shot read that exported its
   line still raises `SerialPortCloseException` when `close()` fails.
   */
  lemma CloseFailureOverridesSuccess(dev: Device, input: seq<ReadEvent>, exports: seq<IoResult>)
    requires HandshakeSucceeds(dev, input)
    requires IsData(At(input, 1)) && ExportAt(exports, 0) == Done
    requires dev.stopWrite == Done && Returned(At(input, 2)) && dev.close == Failed
    ensures Read(dev, input, exports, true).exit == Raise(SerialPortCloseException(CloseFailed))
    ensures Exported(Read(dev, input, exports, true).trace) == [Response(At(input, 1))]
    ensures Read(dev, input, exports, true).portOpen
  {
    var w := World(input, exports, true);
    OnceStopReply(dev, input, exports);
    ReadParts(dev, input, exports, true);
    ReadStopSequence(dev, input, exports, true);
    EngageOnce(dev, w);
    ReadExportsEngaged(dev, input, exports, true);
  }

  /** A sample line as the sensor sends it: `CO2=1000,HUM=45.5,TMP=25.3` and a CRLF. */
  const SampleLine := "CO2=1000,HUM=45.5,TMP=25.3"

  const SampleDevice := Device(Opened, Done, Done, Done)

  const SampleInput := [Line("OK STA\r\n"), Line(SampleLine + "\r\n"), Line("OK STP\r\n")]

  /**
   One complete one-shot exchange: the session exports the sample line with
   its terminator stripped, returns normally and closes the port.
   */
  lemma SampleSession()
    ensures Read(SampleDevice, SampleInput, [], true).exit == Normal
    ensures !Read(SampleDevice, SampleInput, [], true).portOpen
    ensures Exported(Read(SampleDevice, SampleInput, [], true).trace) == [SampleLine]
  {
    assert Response(At(SampleInput, 0)) == ReadyReply by {
      StripCrlf("OK STA");
      assert "OK STA" + "\r\n" == "OK STA\r\n";
    }
    assert Response(At(SampleInput, 1)) == SampleLine by {
      StripCrlf(SampleLine);
    }
    assert Response(At(SampleInput, 2)) == StoppedReply by {
      StripCrlf("OK STP");
      assert "OK STP" + "\r\n" == "OK STP\r\n";
    }
    ReadOnceDelivers(SampleDevice, SampleInput, []);
  }

  /** The line that sample session exports parses to 1000 ppm, 45.5 % and 25.3 degrees. */
  lemma SampleParses()
    ensures Parse(SampleLine) == Parsed(Udco2sData(1000, Decimal(false, "45", "5"), Decimal(false, "25", "3")))
  {
    var g := Groups("1000", Decimal(false, "45", "5"), Decimal(false, "25", "3"));
    assert g.Text() + [] == SampleLine by {
      assert g.hum.Text() == "45.5" && g.tmp.Text() == "25.3";
    }
    ParseWellFormed(g, []);
    SampleCo2();
  }

  lemma SampleCo2()
    ensures DigitsValue("1000") == 1000
  {
    assert DigitsValue("1") == 1 by { assert "1"[..0] == ""; }
    assert DigitsValue("10") == 10 by { assert "10"[..1] == "1"; }
    assert DigitsValue("100") == 100 by { assert "100"[..2] == "10"; }
    assert "1000"[..3] == "100";
  }

  /** Stripping the line terminator off a reply that has no whitespace at its ends. */
  lemma StripCrlf(t: string)
    requires |t| > 0 && !IsSpace(t[0]) && !IsSpace(t[|t| - 1])
    ensures Strip(t + "\r\n") == t
  {
    StripPadded([], t, "\r\n");
    assert [] + t + "\r\n" == t + "\r\n";
  }
}

=== FILE: udco2s.dfy ===
/**
 The serial session of `UdCo2S.read`: open the port and discard its input
 buffer, send `STA` and expect `OK STA`, read data lines once or
 continuously and hand each to the exporter, and in a `finally` block send
 `STP`, read the reply, close the port and check the reply was `OK STP`.

 The port and the exporter are scripted: a `Device` says how opening, the two
 writes and `close()` turn out, the successive `readline()` calls consume a
 sequence of `ReadEvent`s, and the successive `export()` calls consume a
 sequence of results. Each stage is a pure function that returns the actions
 it performed, what is left of the script, and how it exited: normally or by
 raising one of the exceptions the Python code can raise.
 */
module UdCo2S {
  import opened PyStr

  const StartCommand := "STA\r\n"
  const StopCommand := "STP\r\n"
  const ReadyReply := "OK STA"
  const StoppedReply := "OK STP"

  /** What one `readline()` call, with the `.decode("utf-8")` after it, produced. */
  datatype ReadEvent =
    | Line(raw: string)   // the text received, terminator included
    | Timeout             // the timeout elapsed with nothing received: `b""`
    | ReadError           // `serial.SerialException`, or a `UnicodeDecodeError` while decoding
    | Interrupt           // `KeyboardInterrupt` while blocked in the read

  datatype IoResult = Done | Failed

  /** How `serial.Serial(...)` followed by `reset_input_buffer()` turns out. */
  datatype OpenEvent =
    | Opened
    | OpenFailed          // the constructor raised `serial.SerialException`
    | ResetFailed         // the port opened, then `reset_input_buffer()` raised `serial.SerialException`

  /** The scripted behaviour of the port for one call of `read`. */
  datatype Device = Device(open: OpenEvent, startWrite: IoResult, stopWrite: IoResult, close: IoResult)

  /** What the session asks of the port and the exporter, in order. */
  datatype Action =
    | OpenPort
    | ResetInput
    | Write(data: string)
    | ReadLine
    | Export(line: string)
    | ClosePort

  /** What the `SerialPortCloseException` of the stop block wraps. */
  datatype CloseCause =
    | StopWriteFailed            // writing `STP` raised
    | StopReadFailed             // reading the reply raised
    | CloseFailed                // `close()` raised
    | NotStopped(response: string) // the reply was not `OK STP`

  datatype Exception =
    | SerialPortOpenException
    | DeviceNotReadyException(response: string)
    | DataReadTimeoutException
    | SerialPortCloseException(cause: CloseCause)
    | TransportError             // an unwrapped `SerialException` or decode error from a write or read
    | ExportError                // whatever the exporter's `export()` raised
    | KeyboardInterrupt

  datatype Exit = Normal | Raise(exception: Exception)

  /** What is left of the script, and whether the port is physically open. */
  datatype World = World(input: seq<ReadEvent>, exports: seq<IoResult>, portOpen: bool)

  /** A stage's result: the script left over, the actions it performed, how it exited. */
  datatype Step = Step(world: World, actions: seq<Action>, exit: Exit)

  /** The result of `read`: every action performed, how the call ended, and whether the port is still open when it returns. */
  datatype Session = Session(trace: seq<Action>, exit: Exit, portOpen: bool)


  /** The script after its first `n` entries were consumed; an exhausted script stays exhausted. */
  function Drop<T>(s: seq<T>, n: nat): seq<T> {
    if n <= |s| then s[n..] else []
  }

  /** The script after one call consumed its head. */
  function Rest<T>(s: seq<T>): seq<T> {
    Drop(s, 1)
  }

  /** The `i`-th `readline()` from now; a silent device makes every read time out. */
  function At(input: seq<ReadEvent>, i: nat): ReadEvent {
    if i < |input| then input[i] else Timeout
  }

  /** The `i`-th `export()` result from now; past the script the exporter accepts. */
  function ExportAt(exports: seq<IoResult>, i: nat): IoResult {
    if i < |exports| then exports[i] else Done
  }

  /** `readline().decode("utf-8").strip()` for a read that returned. */
  function Response(e: ReadEvent): string {
    if e.Line? then Strip(e.raw) else ""
  }

  /** The read returned (possibly empty) instead of raising. */
  predicate Returned(e: ReadEvent) {
    e.Line? || e.Timeout?
  }

  /** The read delivered a data line: non-empty after stripping. */
  predicate IsData(e: ReadEvent) {
    Response(e) != ""
  }

  /** The lines handed to the exporter, in order. */
  function Exported(trace: seq<Action>): seq<string> {
    if |trace| == 0 then []
    else (if trace[0].Export? then [trace[0].line] else []) + Exported(trace[1..])
  }

  /** No action of the trace is an export. */
  predicate Quiet(trace: seq<Action>) {
    forall k :: 0 <= k < |trace| ==> !trace[k].Export?
  }

  /** Only reads and exports. */
  predicate DataOnly(trace: seq<Action>) {
    forall k :: 0 <= k < |trace| ==> trace[k] == ReadLine || trace[k].Export?
  }

  /** Nothing of the stop sequence: no `STP` and no `close()`. */
  predicate NoStop(trace: seq<Action>) {
    forall k :: 0 <= k < |trace| ==> trace[k] != Write(StopCommand) && trace[k] != ClosePort
  }

  /** The text of the leading run of data lines among the reads. */
  function DataLines(input: seq<ReadEvent>): (r: seq<string>)
    ensures |r| <= |input|
    ensures forall k :: 0 <= k < |r| ==> IsData(input[k]) && r[k] == Response(input[k])
    ensures |r| < |input| ==> !IsData(input[|r|])
  {
    if |input| > 0 && IsData(input[0]) then [Response(input[0])] + DataLines(input[1..]) else []
  }

  /** How many exports in a row the exporter accepts before it first fails. */
  function Accepted(exports: seq<IoResult>): (n: nat)
    ensures n <= |exports|
    ensures forall k :: 0 <= k < n ==> exports[k] == Done
    ensures n < |exports| ==> exports[n] == Failed
  {
    if |exports| > 0 && exports[0].Done? then 1 + Accepted(exports[1..]) else 0
  }

  /** The exporter fails on one of the first `n` lines it is offered. */
  predicate Refuses(n: nat, exports: seq<IoResult>) {
    Accepted(exports) < |exports| && Accepted(exports) < n
  }

  /** How many of `n` offered lines reach `export()`: all of them, or up to the one that fails. */
  function Delivered(n: nat, exports: seq<IoResult>): nat {
    if Refuses(n, exports) then Accepted(exports) + 1 else n
  }

  /** How many data lines the data loop offers to the exporter. */
  function Offered(input: seq<ReadEvent>, continuously: bool): nat {
    if continuously || |DataLines(input)| == 0 then |DataLines(input)| else 1
  }

  /**
   How many `readline()` calls the data loop makes: up to the line the
   exporter refuses, else up to the first line that is not data when reading
   continuously, else just one.
   */
  function Consumed(input: seq<ReadEvent>, exports: seq<IoResult>, continuously: bool): nat {
    if Refuses(Offered(input, continuously), exports) then Accepted(exports) + 1
    else if continuously then |DataLines(input)| + 1
    else 1
  }

  /**
   `_open_serial_port`: open the port and discard its input buffer. Both
   failures surface as `SerialPortOpenException`. After a failed reset the
   port is open but no handle to it is returned, so nothing here closes it.
   */
  function OpenSerialPort(dev: Device, w: World): (s: Step)
    requires !w.portOpen
    ensures s.exit == Normal <==> dev.open == Opened
    ensures s.exit.Raise? ==> s.exit == Raise(SerialPortOpenException)
    ensures s.world.portOpen <==> dev.open != OpenFailed
    ensures s.actions == if dev.open == OpenFailed then [OpenPort] else [OpenPort, ResetInput]
    ensures s.world.input == w.input && s.world.exports == w.exports
  {
    match dev.open
    case OpenFailed => Step(w, [OpenPort], Raise(SerialPortOpenException))
    case ResetFailed => Step(w.(portOpen := true), [OpenPort, ResetInput], Raise(SerialPortOpenException))
    case Opened => Step(w.(portOpen := true), [OpenPort, ResetInput], Normal)
  }

  /**
   `_check_device_ready`: write `STA`, read one reply and require it to be
   exactly `OK STA` after stripping. A failing write or read is not wrapped.
   */
  function CheckDeviceReady(dev: Device, w: World): (s: Step)
    ensures s.exit == Normal <==> dev.startWrite == Done && Response(At(w.input, 0)) == ReadyReply
    ensures dev.startWrite == Done && Returned(At(w.input, 0)) && Response(At(w.input, 0)) != ReadyReply ==>
              s.exit == Raise(DeviceNotReadyException(Response(At(w.input, 0))))
    ensures dev.startWrite == Failed ==> s.exit == Raise(TransportError)
    ensures dev.startWrite == Done && At(w.input, 0) == ReadError ==> s.exit == Raise(TransportError)
    ensures dev.startWrite == Done && At(w.input, 0) == Interrupt ==> s.exit == Raise(KeyboardInterrupt)
    ensures s.exit.Raise? ==> !s.exit.exception.SerialPortCloseException?
    ensures s.actions == if dev.startWrite == Done then [Write(StartCommand), ReadLine] else [Write(StartCommand)]
    ensures s.world == if dev.startWrite == Done then w.(input := Rest(w.input)) else w
  {
    if dev.startWrite.Failed? then Step(w, [Write(StartCommand)], Raise(TransportError))
    else
      var e := At(w.input, 0);
      var next := w.(input := Rest(w.input));
      var actions := [Write(StartCommand), ReadLine];
      if e.ReadError? then Step(next, actions, Raise(TransportError))
      else if e.Interrupt? then Step(next, actions, Raise(KeyboardInterrupt))
      else if Response(e) != ReadyReply then Step(next, actions, Raise(DeviceNotReadyException(Response(e))))
      else Step(next, actions, Normal)
  }

  /**
   `_read_data`: read lines until an empty one, which raises
   `DataReadTimeoutException`; export every non-empty one; stop after the
   first export unless reading continuously. Reading continuously, it can
   only end by raising.
   */
  function ReadData(w: World, continuously: bool): (s: Step)
    ensures continuously ==> s.exit.Raise?
    ensures s.exit.Raise? ==> !s.exit.exception.SerialPortCloseException?
    ensures DataOnly(s.actions)
    ensures s.world.portOpen == w.portOpen
    decreases |w.input|
  {
    var e := At(w.input, 0);
    var next := w.(input := Rest(w.input));
    if e.ReadError? then Step(next, [ReadLine], Raise(TransportError))
    else if e.Interrupt? then Step(next, [ReadLine], Raise(KeyboardInterrupt))
    else if !IsData(e) then Step(next, [ReadLine], Raise(DataReadTimeoutException))
    else
      var head := [ReadLine, Export(Response(e))];
      var after := next.(exports := Rest(w.exports));
      if ExportAt(w.exports, 0).Failed? then Step(after, head, Raise(ExportError))
      else if !continuously then Step(after, head, Normal)
      else
        var rest := ReadData(after, true);
        DataOnlyAppend(head, rest.actions);
        Step(rest.world, head + rest.actions, rest.exit)
  }

  /**
   The data loop hands the exporter the leading run of data lines, in order:
   all of the lines it offers, or those up to and including the first one the
   exporter refuses.
   */
  lemma {:induction false} ReadDataExports(w: World, continuously: bool)
    ensures Exported(ReadData(w, continuously).actions)
         == DataLines(w.input)[..Delivered(Offered(w.input, continuously), w.exports)]
    decreases |w.input|
  {
    var e := At(w.input, 0);
    if IsData(e) {
      assert DataLines(w.input) == [Response(e)] + DataLines(w.input[1..]);
      ExportedHead(Response(e));
      if !ExportAt(w.exports, 0).Failed? && continuously {
        ReadDataExports(w.(input := Rest(w.input), exports := Rest(w.exports)), true);
        ReadDataExportsStep(w);
      }
    }
  }

  /** One more round of the continuous loop adds its line in front of what the later rounds export. */
  lemma ReadDataExportsStep(w: World)
    requires IsData(At(w.input, 0)) && ExportAt(w.exports, 0) == Done
    requires var after := w.(input := Rest(w.input), exports := Rest(w.exports));
             Exported(ReadData(after, true).actions) == DataLines(after.input)[..Delivered(Offered(after.input, true), after.exports)]
    ensures Exported(ReadData(w, true).actions) == DataLines(w.input)[..Delivered(Offered(w.input, true), w.exports)]
  {
    var line := Response(At(w.input, 0));
    var after := w.(input := Rest(w.input), exports := Rest(w.exports));
    ReadDataCons(w);
    DataLinesCons(w.input);
    ContinuousStep(w.input, w.exports);
    ExportsStep(line, ReadData(after, true).actions, DataLines(after.input), Delivered(Offered(after.input, true), after.exports));
  }

  /** A data line the exporter accepts is followed by the rest of the continuous loop. */
  lemma ReadDataCons(w: World)
    requires IsData(At(w.input, 0)) && ExportAt(w.exports, 0) == Done
    ensures var rest := ReadData(w.(input := Rest(w.input), exports := Rest(w.exports)), true);
            ReadData(w, true) == Step(rest.world, [ReadLine, Export(Response(At(w.input, 0)))] + rest.actions, rest.exit)
  {
  }

  lemma DataLinesCons(input: seq<ReadEvent>)
    requires IsData(At(input, 0))
    ensures DataLines(input) == [Response(At(input, 0))] + DataLines(Rest(input))
  {
  }

  /** Reading and exporting `x` in front of a trace puts `x` in front of what it exports. */
  lemma ExportsStep(x: string, t: seq<Action>, lines: seq<string>, d: nat)
    requires d <= |lines| && Exported(t) == lines[..d]
    ensures Exported([ReadLine, Export(x)] + t) == ([x] + lines)[..d + 1]
  {
    ExportedHead(x);
    ExportedAppend([ReadLine, Export(x)], t);
    PrefixCons(x, lines, d);
  }

  lemma PrefixCons<T>(x: T, s: seq<T>, d: nat)
    requires d <= |s|
    ensures ([x] + s)[..d + 1] == [x] + s[..d]
  {
  }

  /** The data loop raises the exporter's error exactly when the exporter refuses one of the lines offered. */
  lemma {:induction false} ReadDataExportError(w: World, continuously: bool)
    ensures ReadData(w, continuously).exit == Raise(ExportError) <==> Refuses(Offered(w.input, continuously), w.exports)
    decreases |w.input|
  {
    var e := At(w.input, 0);
    if IsData(e) {
      assert DataLines(w.input) == [Response(e)] + DataLines(w.input[1..]);
      if !ExportAt(w.exports, 0).Failed? && continuously {
        var after := w.(input := Rest(w.input), exports := Rest(w.exports));
        ReadDataExportError(after, true);
        ContinuousStep(w.input, w.exports);
      }
    }
  }

  /** The data loop makes exactly `Consumed` calls of `readline()`. */
  lemma {:induction false} ReadDataConsumes(w: World, continuously: bool)
    ensures ReadData(w, continuously).world.input == Drop(w.input, Consumed(w.input, w.exports, continuously))
    decreases |w.input|
  {
    var e := At(w.input, 0);
    if IsData(e) {
      assert DataLines(w.input) == [Response(e)] + DataLines(w.input[1..]);
      if !ExportAt(w.exports, 0).Failed? && continuously {
        var after := w.(input := Rest(w.input), exports := Rest(w.exports));
        ReadDataConsumes(after, true);
        ReadDataCons(w);
        ContinuousStep(w.input, w.exports);
        DropRest(w.input, Consumed(w.input[1..], Rest(w.exports), true));
      }
    }
  }

  /** The bookkeeping of one more round of the continuous loop. */
  lemma ContinuousStep(input: seq<ReadEvent>, exports: seq<IoResult>)
    requires |input| > 0 && IsData(input[0])
    requires ExportAt(exports, 0) == Done
    ensures Refuses(Offered(input, true), exports) <==> Refuses(Offered(input[1..], true), Rest(exports))
    ensures Delivered(Offered(input, true), exports) == Delivered(Offered(input[1..], true), Rest(exports)) + 1
    ensures Consumed(input, exports, true) == Consumed(input[1..], Rest(exports), true) + 1
  {
    assert DataLines(input) == [Response(input[0])] + DataLines(input[1..]);
    if |exports| > 0 {
      assert Accepted(exports) == 1 + Accepted(exports[1..]);
    }
  }

  lemma ExportedHead(line: string)
    ensures Exported([ReadLine, Export(line)]) == [line]
  {
    var t := [ReadLine, Export(line)];
    assert t[1..] == [Export(line)];
    assert t[1..][1..] == [];
    assert Exported(t[1..]) == [line] + Exported(t[1..][1..]);
  }

  /** `_read_once`: the data loop, stopping after the first line, which must be data and be exported. */
  function ReadOnce(w: World): (s: Step)
    ensures Exported(s.actions) == if IsData(At(w.input, 0)) then [Response(At(w.input, 0))] else []
    ensures s.exit == Normal <==> IsData(At(w.input, 0)) && ExportAt(w.exports, 0) == Done
    ensures Returned(At(w.input, 0)) && !IsData(At(w.input, 0)) ==> s.exit == Raise(DataReadTimeoutException)
    ensures IsData(At(w.input, 0)) && ExportAt(w.exports, 0) == Failed ==> s.exit == Raise(ExportError)
    ensures At(w.input, 0) == ReadError ==> s.exit == Raise(TransportError)
    ensures At(w.input, 0) == Interrupt ==> s.exit == Raise(KeyboardInterrupt)
    ensures s.world.input == Rest(w.input)
  {
    ReadDataExports(w, false);
    ReadDataExportError(w, false);
    ReadData(w, false)
  }

  /**
   `_read_continuously`: the data loop, with `KeyboardInterrupt` and every
   other exception it raises caught and logged, so that it always returns;
   every data line up to the first empty read or failure is exported.
   */
  function ReadContinuously(w: World): (s: Step)
    ensures s.exit == Normal
    ensures Exported(s.actions) == DataLines(w.input)[..Delivered(|DataLines(w.input)|, w.exports)]
    ensures !Refuses(|DataLines(w.input)|, w.exports) ==> Exported(s.actions) == DataLines(w.input)
    ensures s.world.input == Drop(w.input, Consumed(w.input, w.exports, true))
  {
    ReadDataExports(w, true);
    ReadDataConsumes(w, true);
    var data := ReadData(w, true);
    Step(data.world, data.actions, Normal)
  }

  /**
   `_close_serial_port`, run only if the port is still open: write `STP`,
   read one reply, close the port, and only then check the reply. Every
   `Exception` raised on the way is rewrapped as `SerialPortCloseException`;
   a failing write or read skips `close()`. A `KeyboardInterrupt` is not an
   `Exception` and escapes unwrapped.
   */
  function CloseSerialPort(dev: Device, w: World): (s: Step)
    ensures !w.portOpen ==> s == Step(w, [], Normal)
    ensures w.portOpen && dev.stopWrite == Failed ==>
              s.actions == [Write(StopCommand)] && s.exit == Raise(SerialPortCloseException(StopWriteFailed))
    ensures w.portOpen && dev.stopWrite == Done && !Returned(At(w.input, 0)) ==>
              s.actions == [Write(StopCommand), ReadLine]
    ensures w.portOpen && dev.stopWrite == Done && Returned(At(w.input, 0)) ==>
              s.actions == [Write(StopCommand), ReadLine, ClosePort]
    ensures w.portOpen && dev.stopWrite == Done && At(w.input, 0) == ReadError ==>
              s.exit == Raise(SerialPortCloseException(StopReadFailed))
    ensures w.portOpen && dev.stopWrite == Done && At(w.input, 0) == Interrupt ==>
              s.exit == Raise(KeyboardInterrupt)
    ensures w.portOpen && dev.stopWrite == Done && Returned(At(w.input, 0)) && dev.close == Failed ==>
              s.exit == Raise(SerialPortCloseException(CloseFailed))
    ensures w.portOpen && dev.stopWrite == Done && Returned(At(w.input, 0)) && dev.close == Done ==>
              s.exit == if Response(At(w.input, 0)) == StoppedReply then Normal
                        else Raise(SerialPortCloseException(NotStopped(Response(At(w.input, 0)))))
    ensures s.world.portOpen <==> w.portOpen && !(dev.stopWrite == Done && Returned(At(w.input, 0)) && dev.close == Done)
  {
    if !w.portOpen then Step(w, [], Normal)
    else if dev.stopWrite.Failed? then Step(w, [Write(StopCommand)], Raise(SerialPortCloseException(StopWriteFailed)))
    else
      var e := At(w.input, 0);
      var next := w.(input := Rest(w.input));
      var asked := [Write(StopCommand), ReadLine];
      if e.ReadError? then Step(next, asked, Raise(SerialPortCloseException(StopReadFailed)))
      else if e.Interrupt? then Step(next, asked, Raise(KeyboardInterrupt))
      else
        var closed := [Write(StopCommand), ReadLine, ClosePort];
        if dev.close.Failed? then Step(next, closed, Raise(SerialPortCloseException(CloseFailed)))
        else if Response(e) != StoppedReply then
          Step(next.(portOpen := false), closed, Raise(SerialPortCloseException(NotStopped(Response(e)))))
        else Step(next.(portOpen := false), closed, Normal)
  }

  /** The handshake `STA` / `OK STA` succeeds with the first reply. */
  predicate HandshakeSucceeds(dev: Device, input: seq<ReadEvent>) {
    dev.open == Opened && dev.startWrite == Done && Response(At(input, 0)) == ReadyReply
  }

  /** How many `readline()` calls the `try` block makes once the port is open. */
  function TryReads(dev: Device, input: seq<ReadEvent>, exports: seq<IoResult>, isOnce: bool): nat {
    if dev.startWrite == Failed then 0
    else if Response(At(input, 0)) != ReadyReply then 1
    else 1 + Consumed(Rest(input), exports, !isOnce)
  }

  /**
   The part of the `try` block of `read` after the port is open: check the
   device is ready, then read once or continuously. It never writes `STP` or
   closes the port.
   */
  function Engage(dev: Device, w: World, isOnce: bool): (s: Step)
    ensures |s.actions| > 0 && s.actions[0] == Write(StartCommand)
    ensures NoStop(s.actions)
    ensures s.exit.Raise? ==> !s.exit.exception.SerialPortCloseException?
    ensures s.world.portOpen == w.portOpen
  {
    var ready := CheckDeviceReady(dev, w);
    if ready.exit.Raise? then ready
    else
      var data := if isOnce then ReadOnce(w.(input := Rest(w.input))) else ReadContinuously(w.(input := Rest(w.input)));
      EngageShape(data.actions);
      Step(data.world, ready.actions + data.actions, data.exit)
  }

  lemma EngageShape(b: seq<Action>)
    requires DataOnly(b)
    ensures NoStop([Write(StartCommand), ReadLine] + b)
    ensures Exported([Write(StartCommand), ReadLine] + b) == Exported(b)
  {
    var a := [Write(StartCommand), ReadLine];
    var t := a + b;
    assert forall k :: 2 <= k < |t| ==> t[k] == b[k - 2];
    ExportedAppend(a, b);
    QuietExported(a);
  }

  /** Without a successful handshake nothing is exported; a returned reply other than `OK STA` raises `DeviceNotReadyException` carrying it. */
  lemma EngageRefused(dev: Device, w: World, isOnce: bool)
    requires !(dev.startWrite == Done && Response(At(w.input, 0)) == ReadyReply)
    ensures Quiet(Engage(dev, w, isOnce).actions)
    ensures dev.startWrite == Done && Returned(At(w.input, 0)) ==>
              Engage(dev, w, isOnce) == Step(w.(input := Rest(w.input)), [Write(StartCommand), ReadLine],
                                             Raise(DeviceNotReadyException(Response(At(w.input, 0)))))
  {
  }

  /** After the handshake, reading once exports the next line if it is data, and succeeds exactly when that export does. */
  lemma EngageOnce(dev: Device, w: World)
    requires dev.startWrite == Done && Response(At(w.input, 0)) == ReadyReply
    ensures Exported(Engage(dev, w, true).actions) == if IsData(At(w.input, 1)) then [Response(At(w.input, 1))] else []
    ensures Engage(dev, w, true).exit == Normal <==> IsData(At(w.input, 1)) && ExportAt(w.exports, 0) == Done
    ensures Returned(At(w.input, 1)) && !IsData(At(w.input, 1)) ==> Engage(dev, w, true).exit == Raise(DataReadTimeoutException)
  {
    var data := ReadOnce(w.(input := Rest(w.input)));
    AtRest(w.input, 0);
    EngageShape(data.actions);
  }

  /** After the handshake, reading continuously returns normally having exported the run of data lines that follows. */
  lemma EngageContinuously(dev: Device, w: World)
    requires dev.startWrite == Done && Response(At(w.input, 0)) == ReadyReply
    ensures Engage(dev, w, false).exit == Normal
    ensures Exported(Engage(dev, w, false).actions)
         == DataLines(Rest(w.input))[..Delivered(|DataLines(Rest(w.input))|, w.exports)]
  {
    var data := ReadContinuously(w.(input := Rest(w.input)));
    EngageShape(data.actions);
  }

  /** The `try` block makes exactly `TryReads` calls of `readline()`. */
  lemma EngageReads(dev: Device, w: World, isOnce: bool)
    ensures Engage(dev, w, isOnce).world.input == Drop(w.input, TryReads(dev, w.input, w.exports, isOnce))
  {
    if dev.startWrite == Done && Response(At(w.input, 0)) == ReadyReply {
      DropRest(w.input, if isOnce then 1 else Consumed(Rest(w.input), w.exports, true));
    }
  }

  /** The `try` block of `read`: open the port, then engage the device. */
  function Attempt(dev: Device, input: seq<ReadEvent>, exports: seq<IoResult>, isOnce: bool): (s: Step)
    ensures dev.open != Opened ==>
              s.exit == Raise(SerialPortOpenException)
              && s.actions == (if dev.open == OpenFailed then [OpenPort] else [OpenPort, ResetInput])
              && s.world.portOpen == (dev.open == ResetFailed)
    ensures dev.open == Opened ==> s.world.portOpen && |s.actions| > 2 && s.actions[..3] == [OpenPort, ResetInput, Write(StartCommand)]
  {
    var start := OpenSerialPort(dev, World(input, exports, false));
    if start.exit.Raise? then start
    else
      var engaged := Engage(dev, start.world, isOnce);
      Step(engaged.world, start.actions + engaged.actions, engaged.exit)
  }

  /** Python's `try`/`finally`: an exception raised by the cleanup replaces whatever the body did. */
  function Finally(body: Exit, cleanup: Exit): Exit {
    if cleanup.Raise? then cleanup else body
  }

  /** The stop block writes `STP`, reads `OK STP` and closes the port without raising. */
  predicate StopSucceeds(dev: Device, reply: ReadEvent) {
    dev.stopWrite == Done && Response(reply) == StoppedReply && dev.close == Done
  }

  /** The reply the stop block reads: the one after the last read of the `try` block. */
  function StopReply(dev: Device, input: seq<ReadEvent>, exports: seq<IoResult>, isOnce: bool): ReadEvent {
    At(input, TryReads(dev, input, exports, isOnce))
  }

  /**
   `UdCo2S.read`: the `try` block, then the `finally` block, which runs the
   stop sequence when `sp` was bound, that is when `_open_serial_port`
   returned. A failed open leaves no trace beyond the attempt; after a
   failed reset the port is still open when `read` returns.
   */
  function Read(dev: Device, input: seq<ReadEvent>, exports: seq<IoResult>, isOnce: bool): (r: Session)
    ensures dev.open == OpenFailed ==> r == Session([OpenPort], Raise(SerialPortOpenException), false)
    ensures dev.open == ResetFailed ==> r == Session([OpenPort, ResetInput], Raise(SerialPortOpenException), true)
    ensures dev.open == Opened ==> |r.trace| > 3 && r.trace[..3] == [OpenPort, ResetInput, Write(StartCommand)]
  {
    var tried := Attempt(dev, input, exports, isOnce);
    if dev.open != Opened then Session(tried.actions, tried.exit, tried.world.portOpen)
    else
      var stopped := CloseSerialPort(dev, tried.world);
      Session(tried.actions + stopped.actions, Finally(tried.exit, stopped.exit), stopped.world.portOpen)
  }

  /** The pieces `read` is made of, once the port is open. */
  lemma ReadParts(dev: Device, input: seq<ReadEvent>, exports: seq<IoResult>, isOnce: bool)
    requires dev.open == Opened
    ensures var e := Engage(dev, World(input, exports, true), isOnce);
            var c := CloseSerialPort(dev, e.world);
            Read(dev, input, exports, isOnce) == Session([OpenPort, ResetInput] + e.actions + c.actions, Finally(e.exit, c.exit), c.world.portOpen)
            && e.world.input == Drop(input, TryReads(dev, input, exports, isOnce))
            && At(e.world.input, 0) == StopReply(dev, input, exports, isOnce)
            && e.world.portOpen
  {
    EngageReads(dev, World(input, exports, true), isOnce);
    DropAt(input, TryReads(dev, input, exports, isOnce), 0);
  }

  /** Nothing reaches the exporter unless the port opened and the device answered `OK STA`. */
  lemma ReadHandshakeGate(dev: Device, input: seq<ReadEvent>, exports: seq<IoResult>, isOnce: bool)
    ensures Exported(Read(dev, input, exports, isOnce).trace) != [] ==> HandshakeSucceeds(dev, input)
  {
    if dev.open != Opened {
      QuietExported(Read(dev, input, exports, isOnce).trace);
    } else if !HandshakeSucceeds(dev, input) {
      var w := World(input, exports, true);
      var e := Engage(dev, w, isOnce);
      ReadParts(dev, input, exports, isOnce);
      EngageRefused(dev, w, isOnce);
      QuietExported(e.actions);
      ReadExportsEngaged(dev, input, exports, isOnce);
    }
  }

  /**
   The lines a session exports are those its `try` block exports: the
   trace of `read` adds only the opening and the stop sequence around it.
   */
  lemma ReadExportsEngaged(dev: Device, input: seq<ReadEvent>, exports: seq<IoResult>, isOnce: bool)
    requires dev.open == Opened
    ensures Exported(Read(dev, input, exports, isOnce).trace) == Exported(Engage(dev, World(input, exports, true), isOnce).actions)
  {
    var e := Engage(dev, World(input, exports, true), isOnce);
    ReadParts(dev, input, exports, isOnce);
    CloseQuiet(dev, e.world);
    ExportedSession(e.actions, CloseSerialPort(dev, e.world).actions);
  }

  /** The stop block exports nothing. */
  lemma CloseQuiet(dev: Device, w: World)
    ensures Quiet(CloseSerialPort(dev, w).actions)
  {
  }

  /** Opening the port and a stop block that exports nothing add nothing to what the session exports. */
  lemma ExportedSession(e: seq<Action>, c: seq<Action>)
    requires Quiet(c)
    ensures Exported([OpenPort, ResetInput] + e + c) == Exported(e)
  {
    ExportedAppend([OpenPort, ResetInput], e);
    ExportedAppend([OpenPort, ResetInput] + e, c);
    QuietExported([OpenPort, ResetInput]);
    QuietExported(c);
  }

  /**
   Once `_open_serial_port` returned, the stop block always writes `STP`; it
   closes the port exactly when that write succeeded and the reply read
   returned, and closing is then the last action; the port is left closed
   exactly when `close()` also succeeded.
   */
  lemma ReadStopSequence(dev: Device, input: seq<ReadEvent>, exports: seq<IoResult>, isOnce: bool)
    requires dev.open == Opened
    ensures Write(StopCommand) in Read(dev, input, exports, isOnce).trace
    ensures ClosePort in Read(dev, input, exports, isOnce).trace
            <==> dev.stopWrite == Done && Returned(StopReply(dev, input, exports, isOnce))
    ensures ClosePort in Read(dev, input, exports, isOnce).trace ==>
              Read(dev, input, exports, isOnce).trace[|Read(dev, input, exports, isOnce).trace| - 1] == ClosePort
    ensures !Read(dev, input, exports, isOnce).portOpen
            <==> dev.stopWrite == Done && Returned(StopReply(dev, input, exports, isOnce)) && dev.close == Done
  {
    var w := World(input, exports, true);
    var e := Engage(dev, w, isOnce);
    var c := CloseSerialPort(dev, e.world);
    ReadParts(dev, input, exports, isOnce);
    StopShape([OpenPort, ResetInput] + e.actions, c.actions);
  }

  lemma StopShape(a: seq<Action>, b: seq<Action>)
    requires |a| > 2 && a[0] == OpenPort && a[1] == ResetInput && NoStop(a[2..])
    requires b == [Write(StopCommand)] || b == [Write(StopCommand), ReadLine] || b == [Write(StopCommand), ReadLine, ClosePort]
    ensures Write(StopCommand) in a + b
    ensures ClosePort in a + b <==> ClosePort in b
    ensures (a + b)[|a + b| - 1] == b[|b| - 1]
  {
    var t := a + b;
    assert t[|a|] == b[0];
    assert forall k :: 2 <= k < |a| ==> t[k] == a[2..][k - 2];
  }

  /**
   How `read` ends once the port opened: if the stop block succeeds, the way
   the `try` block ended; otherwise the stop block's failure replaces it,
   and that is a `SerialPortCloseException` unless the reply read was
   interrupted.
   */
  lemma ReadExit(dev: Device, input: seq<ReadEvent>, exports: seq<IoResult>, isOnce: bool)
    requires dev.open == Opened
    ensures StopSucceeds(dev, StopReply(dev, input, exports, isOnce)) ==>
              Read(dev, input, exports, isOnce).exit == Engage(dev, World(input, exports, true), isOnce).exit
    ensures !StopSucceeds(dev, StopReply(dev, input, exports, isOnce)) ==>
              Read(dev, input, exports, isOnce).exit.Raise?
              && (Read(dev, input, exports, isOnce).exit.exception.SerialPortCloseException?
                  || (Read(dev, input, exports, isOnce).exit == Raise(KeyboardInterrupt)
                      && StopReply(dev, input, exports, isOnce) == Interrupt))
    ensures dev.stopWrite == Failed ==> Read(dev, input, exports, isOnce).exit == Raise(SerialPortCloseException(StopWriteFailed))
  {
    ReadParts(dev, input, exports, isOnce);
  }

  lemma AtRest(input: seq<ReadEvent>, i: nat)
    ensures At(Rest(input), i) == At(input, i + 1)
  {
  }

  lemma DropAt(input: seq<ReadEvent>, n: nat, i: nat)
    ensures At(Drop(input, n), i) == At(input, n + i)
  {
  }

  lemma DropRest<T>(s: seq<T>, n: nat)
    ensures Drop(Rest(s), n) == Drop(s, n + 1)
  {
  }

  lemma DataOnlyAppend(a: seq<Action>, b: seq<Action>)
    requires DataOnly(a) && DataOnly(b)
    ensures DataOnly(a + b)
  {
    assert forall k :: |a| <= k < |a + b| ==> (a + b)[k] == b[k - |a|];
  }

  /** Exporting distributes over concatenated traces. */
  lemma {:induction false} ExportedAppend(a: seq<Action>, b: seq<Action>)
    ensures Exported(a + b) == Exported(a) + Exported(b)
  {
    if |a| > 0 {
      assert (a + b)[1..] == a[1..] + b;
      ExportedAppend(a[1..], b);
    } else {
      assert a + b == b;
    }
  }

  /** A trace without exports exports nothing, and conversely. */
  lemma {:induction false} QuietExported(t: seq<Action>)
    ensures Quiet(t) <==> Exported(t) == []
  {
    if |t| > 0 {
      QuietExported(t[1..]);
      assert Quiet(t) <==> !t[0].Export? && Quiet(t[1..]) by {
        if !t[0].Export? && Quiet(t[1..]) {
          forall k | 0 <= k < |t| ensures !t[k].Export? {
            if k > 0 { assert t[k] == t[1..][k - 1]; }
          }
        }
      }
    }
  }
}
